=== FILE: README.md ===
# Rate tracker of NGU-scripts, modelled in Dafny

`classes/stats.py` measures how fast a game's XP, PP (perk points) and QP
(quest points) grow. It reads each value off the screen, retrying unreadable
reads a bounded number of times. It logs the change of each value and the
elapsed time between cycles, and reports per-hour rates as a cumulative
average or as a moving average over a window of recent cycles.

The model has seven modules:

- `Numerics` (`numerics.dfy`): the Python arithmetic the code relies on.
  `sum`, `round` (ties to even, characterised by `RoundsTo`) and floor
  division `//`.
- `Acquisition` (`acquisition.dfy`): `Stats.set_value_with_ocr`.
  - The class-level state (stored values, `OCR_failures`, `OCR_failed`) is one
    immutable `Stats` record.
  - The screen is a `Reader`: the outcome of every read attempt, indexed by
    attempt number.
  - The result also carries the trace of attempts and of the clears of
    `Navigation.current_menu`.
- `Estimator` (`estimator.dfy`): the state of `EstimateRate` and its
  constructor.
  - Each of XP, PP and QP is a `Channel`: the tracking flag, the baseline and
    the differential log.
  - The record also holds the shared `Stats` and the index of the next
    screen read.
  - `Inv` is the invariant every operation keeps. A tracked log is never
    shorter than the elapsed-time log, and an untracked log stays empty.
- `Logger` (`logger.dfy`): `stop_watch` and `update_xp`.
- `RateEstimate` (`rates.dfy`): `__average`, `__moving_average` and `rates`.
- `Tracker` (`tracker.dfy`): the `Tracker` delegations, plus repeated
  `progress()` calls.
- `Scenarios` (`scenarios.dfy`): concrete runs. They cover the four-run
  window example, the two modes diverging, a read needing every retry, a
  cycle that stops partway, and both effects of the eviction bug under
  "Findings".

Three behaviours of the code are easy to miss:

- A cycle is not atomic. An XP delta logged before a later PP or QP hard
  failure stays in the log, so the per-metric logs can be longer than the
  elapsed-time log (`Scenarios.PartialCycleMisaligns`).
- Eviction happens inside `rates()`, at most one sample per call. It does
  not happen when a cycle is logged.
- `stop_watch` reads the clock twice at the end of a complete cycle. The
  elapsed time uses the first reading (`t1`). The new time baseline is the
  second reading (`t2`).

## Model

| member | source | states |
|---|---|---|
| `Numerics.RoundHalfEven` | classes/stats.py:107 | The result is the nearest integer to the number; on a tie it is the even neighbour (`RoundsTo`). |
| `Numerics.RoundsToUnique` | classes/stats.py:107 | At most one integer satisfies `RoundsTo`, so that characterisation fixes `round` completely. |
| `Numerics.FloorDiv` | classes/stats.py:74 | `a // b` is the floor of the quotient: `b*q <= a < b*q + b` for positive `b`, and the mirror image for negative `b`. |
| `Acquisition.Acquire` | classes/stats.py:23-51 | The call makes at least one attempt and no more than the retry budget (four from a clean counter). Every attempt except the last was unreadable. `OCR_failed` holds exactly when the last attempt failed, and then the whole budget was spent. On success the reading is stored; on failure the stored value is kept. Other metrics' values never change, and the failure counter is 0 on every return. Entered with f earlier failures, the trace is the first attempt followed by the retries numbered from f+2, each preceded by a menu clear exactly when its number is at least 3. |
| `Acquisition.TopLevelTraces` | classes/stats.py:41-47 | The traces of one to four attempts from a clean counter, written out: `[A]`, `[A, A]`, `[A, A, C, A]` and `[A, A, C, A, C, A]`, where C clears the current menu. |
| `Acquisition.MenuClearedFromSecondFailure` | classes/stats.py:41-47 | From a clean counter the call makes one to four attempts. The current menu is cleared before attempts 3 and 4, never before attempt 2, and never after the last attempt. The four possible traces are spelled out. |
| `Acquisition.SuccessOnAttempt` | classes/stats.py:25-47 | If attempt k ≤ 4 is the first readable one, the call stops after exactly k attempts. That reading is stored, and `OCR_failed` is false with the counter at 0. |
| `Acquisition.FourFailuresGiveUp` | classes/stats.py:40-51 | Four unreadable screens in a row give a hard failure after exactly four attempts. `OCR_failed` is true, the counter is 0, and the stored value is unchanged. |
| `Estimator.AcquireIfTracked` | classes/stats.py:59-65 | One guarded read of the constructor. A clear flag reads nothing and changes nothing. A set flag makes at least one attempt. A successful read stores a value that came from the screen, and a hard failure leaves that metric's value alone. The other metrics are untouched either way. |
| `Estimator.NewEstimator` | classes/stats.py:55-76 | A zero duration is exactly the `ZeroDivisionError` case. Either way, the stored values and read position are those left by the guarded XP, PP and QP reads, in that order. Otherwise all logs start empty and `Inv` holds. The flags are those given and the time baseline is the first clock reading. Every baseline equals the value stored after the reads, and an untracked metric's stored value is not read. The window is `120 // duration`. |
| `Logger.RecordOne` | classes/stats.py:114-124 | One tracked metric's block. The state after it is that of the metric's acquisition (stored values, failure flags, read position). It gets through exactly when the acquisition did not hard-fail. Then exactly `new - last` is logged and the baseline becomes `new`, the value the acquisition read. On a hard failure the channel is untouched and `OCR_failed` is set. Other metrics' channels and stored values never change. |
| `Logger.RecordFrom` | classes/stats.py:113-146 | Blocks run in order. Each metric before the stopping point has its delta against the old baseline logged (if tracked) or is untouched (if not). The metrics from the stopping point on are untouched, and that metric was tracked and left `OCR_failed` set. The time log and time baseline are not touched here. `RecordFromStopsAtFailure`, `RecordFromMovesForward` and `RecordFromValuesRead` tie the stopping point and the logged values to the screen reads. |
| `Logger.RecordFromMovesForward` | classes/stats.py:113-146 | Reading only moves forward, and it moves exactly when some metric of the run is tracked. With none tracked, the stored values stay and the run gets through. |
| `Logger.RecordFromStopsAtFailure` | classes/stats.py:113-146 | A run that read the screen gets through every block exactly when `OCR_failed` is clear at its end. It stops at the first hard failure and at no other point. |
| `Logger.RecordFromValuesRead` | classes/stats.py:114-142 | Every tracked metric the run got past holds a value the screen showed during the run. |
| `Logger.StopWatch` | classes/stats.py:111-149 | Metrics are taken in XP, PP, QP order, and each tracked metric the cycle got past logged exactly `new - last`; its baseline became `new`. The failing metric and all later ones are untouched. On a complete cycle `t1 - last_timestamp` is appended to the time log and the time baseline becomes `t2`. After a hard failure nothing is appended and the time baseline becomes `t1`. `StopWatchReads` ties the outcome to the screen. |
| `Logger.StopWatchReads` | classes/stats.py:111-149 | Reading only moves forward, and with nothing tracked nothing is read and the cycle completes. With something tracked the cycle completes exactly when no acquisition hard-failed, so the elapsed time is logged exactly then. Every tracked metric the cycle got past holds a value read during the cycle. |
| `Logger.StopWatchChannels` | classes/stats.py:114-146 | Per metric, a cycle either leaves the channel unchanged or logs one delta, and only for a tracked metric. An untracked channel never changes, and a complete cycle logs every tracked one. |
| `Logger.StopWatchKeepsInv` | classes/stats.py:111-149 | A cycle keeps `Inv`: tracked logs are never shorter than the time log, and untracked logs stay empty. |
| `Logger.LoggedTelescopes` | classes/stats.py:117-120 | Logging one reading leaves `sum(log) - last` unchanged. |
| `Logger.StopWatchTelescopes` | classes/stats.py:114-146 | For every metric, `sum(log) - last` survives a cycle, whether it completes or fails. |
| `Logger.StopWatchElapsed` | classes/stats.py:147-149 | A complete cycle adds exactly `t1 - last_timestamp` to the total logged time. |
| `Logger.StopWatchKeeps` | classes/stats.py:111-149 | A cycle keeps `Inv` and every metric's `sum(log) - last`, adds at most one elapsed time, and leaves mode and window alone. |
| `Logger.RecordFromKeepsFirstRead` | classes/stats.py:114-146 | Once a cycle's first metric got through, its stored value is the one its own acquisition read. No later read in the cycle overwrites it. |
| `Logger.CycleLogsXp` | classes/stats.py:114-120 | A cycle that gets past a tracked XP appends exactly one XP delta, `new - last_xp` measured against the old baseline. |
| `Logger.CycleReadsXpFirst` | classes/stats.py:114-120 | When a cycle gets past a tracked XP, the XP it holds is the value of its first acquisition. The PP and QP reads after it leave the stored XP alone. |
| `Logger.UpdateXpRebasesNextDelta` | classes/stats.py:152-154 | A cycle run after `update_xp()` measures its XP delta from the XP stored at the time of the call, not from the old baseline. |
| `Logger.UpdateXpKeepsNextRead` | classes/stats.py:152-154 | `update_xp()` does not change the XP the next cycle reads. Only the baseline the delta is measured from moves. |
| `Logger.UpdateXp` | classes/stats.py:152-154 | The XP baseline becomes the stored XP value. No log, flag or other baseline changes, and nothing is read. |
| `RateEstimate.AverageRates` | classes/stats.py:82-109 | The rates are zero when the logged time sums to zero, including the empty log. Otherwise each one is `round(3600 * sum(d_log) / sum(dtime_log))`, as characterised by `IsHourlyRates`. |
| `RateEstimate.HourlyRatesUnique` | classes/stats.py:104-109 | `IsHourlyRates` determines the reported triple uniquely. |
| `RateEstimate.PopLog` | classes/stats.py:92-98 | `pop(0)` fails with `IndexError` exactly on an empty log. Otherwise it drops the oldest entry of that one log and changes nothing else. |
| `RateEstimate.EvictAsWritten` | classes/stats.py:91-98 | Below the threshold nothing changes. A failure happens only above it, and the time log's pop made before it stays applied. Otherwise the oldest time is dropped, along with the oldest XP and PP deltas when tracked and the oldest QP delta when PP is tracked. |
| `RateEstimate.EvictCorrected` | classes/stats.py:91-98 | With the QP pop guarded by the QP flag, eviction never fails under `Inv` with a non-negative window. It drops the head of the time log and of every tracked log, and keeps `Inv`. |
| `RateEstimate.Rates` | classes/stats.py:89-109 | Reported rates satisfy `IsHourlyRates` for the logs after eviction. Average mode never changes the logs. Moving-average mode leaves them unchanged up to `keep_runs` samples. Above that it evicts exactly one oldest sample, in order, and an `IndexError` can only arise there. |
| `RateEstimate.RatesCorrected` | classes/stats.py:89-109 | Same as `Rates` with the corrected eviction. Under `Inv` with a non-negative window it always reports and keeps `Inv`. |
| `RateEstimate.RatesCrashExactly` | classes/stats.py:91-98 | Under `Inv` with a non-negative window, `rates()` fails only in one case: moving-average mode, the window exceeded, PP tracked and QP untracked. |
| `RateEstimate.RatesKeepsQpHistory` | classes/stats.py:93-98 | With QP tracked and PP untracked, an overflowing moving window drops the oldest elapsed time but keeps every QP delta. From then on the QP log is longer than the time log. The corrected eviction drops the oldest QP delta. |
| `RateEstimate.RatesKeepInv` | classes/stats.py:91-98 | When `rates()` returns, `Inv` still holds. |
| `RateEstimate.RatesAgreeWhenFlagsMatch` | classes/stats.py:93-98 | When PP and QP are both tracked or both untracked, the code as written and the corrected eviction agree. |
| `Tracker.NewTracker` | classes/stats.py:165-171 | A zero duration fails. Otherwise the tracker starts at iteration 1 with the given start time. Its estimator is exactly the one `EstimateRate.__init__` builds from the same reads, with those flags, the given mode and `Inv`. The time, XP, PP and QP logs are empty, and the window is `120 // duration`. |
| `Tracker.Progress` | classes/stats.py:202-204 | The estimator is exactly the one a `stop_watch()` cycle leaves, and the iteration count grows by one. `Inv` and every metric's `sum(log) - last` are kept, and the time log grows by at most one. |
| `Tracker.AdjustXp` | classes/stats.py:206-207 | It is `update_xp()` on the owned estimator. Only the XP baseline moves, to the stored XP value. Logs and the other metrics are untouched. |
| `Tracker.ReadElsewhere` | classes/stats.py:23-51 | A `set_value_with_ocr` by another `Stats` instance consumes screen reads. On success it stores the reading in the shared values; on a hard failure it keeps the old value. Other stored values, every baseline and every log stay as they were, and `Inv` is kept. |
| `Tracker.AdjustXpExcludesOutsideChange` | classes/stats.py:152-154 | Applies to any tracker whose stored XP has drifted from its baseline, for example after `ReadElsewhere`. A cycle preceded by `adjustxp()` logs the XP gained since the stored value. Without `adjustxp()`, the delta is measured from the old baseline. It then equals the adjusted gain plus the outside change `stats.xp - last_xp` (the upgrade spend). |
| `Tracker.GetRates` | classes/stats.py:192-194 | The dictionary has exactly the keys `xph`, `pph` and `qph`, holding rates that satisfy `IsHourlyRates` for the tracker after the call. In average mode, and in moving-average mode up to `keep_runs` samples, it always answers and changes nothing. Above the window, an answer comes after exactly one eviction (`EvictedOnce`). A failure can happen only there. The start time and iteration count never change. |
| `Tracker.ProgressAll` | classes/stats.py:202-204 | n calls of `progress()` advance the iteration count by n and add at most n elapsed times. |
| `Tracker.ProgressAllTelescopes` | classes/stats.py:111-149 | Over any number of cycles, failed ones included, each metric's logged deltas sum to the move of its baseline. |
| `Tracker.ProgressAllKeepsInv` | classes/stats.py:111-149 | Any number of cycles keep `Inv`. |
| `Tracker.NetGainSinceStart` | classes/stats.py:114-142 | From an empty log, the log always sums to the net gain since the starting baseline. |
| `Tracker.WindowStaysBounded` | classes/stats.py:89-102 | In moving-average mode with the QP flag set whenever the PP flag is, a cycle followed by `get_rates` keeps at most `keep_runs` samples. If the window was full and the cycle completed, exactly `keep_runs` samples remain. |
| `Scenarios.MovingWindowExample` | classes/stats.py:89-109 | A duration of 30 gives a window of 4. Five samples of 100 XP per 10 s lose the oldest sample and report 36000 per hour. |
| `Scenarios.ModesDiverge` | classes/stats.py:82-102 | With a constant rate both modes report 36000. A larger first delta makes the average 57600 while the window, having evicted it, stays at 36000. |
| `Scenarios.ThreeFailuresThenSuccess` | classes/stats.py:40-47 | Three unreadable screens and then 42 store 42 on the fourth attempt, with no hard failure, the counter at 0, and two menu clears. |
| `Scenarios.PartialCycleMisaligns` | classes/stats.py:114-135 | A success on XP followed by a hard failure on PP keeps the XP delta. No time is logged and the baseline becomes `t1`. |
| `Scenarios.UntrackedPpKeepsQpHistory` | classes/stats.py:95-109 | QP tracked, PP untracked, a window of 1, two 10 s samples and QP deltas 100 and 5. `rates()` keeps both QP deltas and reports 37800 QP per hour. The corrected eviction reports 1800. |
| `Scenarios.UntrackedQpEvictionCrashes` | classes/stats.py:95-98 | With PP tracked and QP untracked, the first eviction pops the empty QP log. The time and PP pops have already been applied. The corrected eviction reports normally. |

## Left out

- The screen reads (`ocr_number`, `ocr_notation`) and the navigation calls (`misc`, `exp`, `perks`, `menu`) live in `Navigation`, which is not part of this model. Each read is an outcome from the `Reader`. A clear of `current_menu` is an event in the trace.
- `time.time()` is not modelled. The clock readings are parameters (`now`, `started`, `t1`, `t2`), and time is a real number of seconds.
- Floating point is not modelled. Sums, the division and the scaling by 3600 are exact real arithmetic, and `round` rounds ties to even on that exact value. Readings are integers.
- `Tracker.elapsed_time` is left out. It is `datetime.timedelta` string formatting.
- `Tracker.human_format` is left out. It is float formatting.
- `Tracker.__show_progress` is left out. It is printing only and is never called.
- All `print` output is left out.
- The `window` and `mutex` handles are left out. They are passed along and never used here.
- `EstimateRate.__iteration` and `__elapsed` are left out. They are written but never read.
- `Stats.start_time` is left out because it is never read.
- A metric name other than the four is not modelled. `set_value_with_ocr` would read nothing and just clear the failure state; the model's `Metric` type has only the four names the code uses.
- Other `Stats` instances writing the shared class-level values are modelled only as reads of a metric (`Tracker.ReadElsewhere`), which is what gives `adjustxp()` its effect. Several trackers overwriting each other's track flags are not modelled; `Tracker` setting the flags is construction-time configuration.
- A `mode` other than `'moving_average'` and `'average'` is not modelled. `rates()` looks the mode up in a dictionary (classes/stats.py:77-80, 106), so any other string raises a `KeyError`. `except ZeroDivisionError` does not catch it, so the first `rates()` call fails. The model's `Mode` type has only the two valid names.
- Only integer durations are modelled. A duration of 0 is the `ZeroDivisionError` outcome, raised after the starting reads were made. A negative one gives a negative window through Python's floor division, and the model keeps that.

## Findings

| source | as written | input that shows it | evidently intended | confidence | as-written member | corrected member |
|---|---|---|---|---|---|---|
| classes/stats.py:97 | `self.dqp_log.pop(0)` is guarded by `Stats.track_pp` | moving-average mode, PP tracked, QP untracked, more samples than `keep_runs` (`Scenarios.UntrackedQpEvictionCrashes`): the empty QP log is popped and `IndexError` escapes `rates()`. Silently, with QP tracked and PP untracked, the QP log is never evicted and `qph` is the whole QP history over the windowed time (`Scenarios.UntrackedPpKeepsQpHistory`: 37800 instead of 1800) | guard the QP pop with `Stats.track_qp`, like the other two logs | high; not executed | `RateEstimate.EvictAsWritten`, `RateEstimate.RatesCrashExactly`, `RateEstimate.RatesKeepsQpHistory` | `RateEstimate.EvictCorrected`, `RateEstimate.RatesCorrected` |

`Tracker.GetRates` delegates to `RateEstimate.Rates`, which models the code
as written, so the failure stays visible at the caller-facing level.
`RateEstimate.RatesCorrected` is the same operation with the corrected
eviction. `RateEstimate.RatesAgreeWhenFlagsMatch` shows that the two differ
only when the PP and QP flags differ.

=== FILE: acquisition.dfy ===
/** The bounded-retry acquisition of `Stats.set_value_with_ocr`: one screen
    reading of a metric, retried while the shared failure counter stays at
    most three, with the navigation's remembered menu forgotten before the
    third and fourth attempts. */
module Acquisition {

  /** The four values the screen reader can be asked for ("TOTAL XP", "XP",
      "PP", "QP"). */
  datatype Metric = TotalXp | Xp | Pp | Qp

  /** Outcome of one read attempt: a number, or the `ValueError` raised when
      the screen region does not parse as one. */
  datatype Reading = Number(n: int) | Unreadable

  /** The screen, seen as the outcome of every read attempt in order: the
      i-th attempt of the whole run yields `reader(i)`. */
  type Reader = nat -> Reading

  /** The class-level state shared by every `Stats` instance: the last value
      stored for each metric and the failure bookkeeping. */
  datatype Stats = Stats(totalXp: int, xp: int, pp: int, qp: int, failures: nat, failed: bool)

  /** The class attributes as the program starts. */
  const InitialStats := Stats(0, 0, 0, 0, 0, false)

  /** The counter value up to which a failed read is retried. */
  const MaxRetries := 3

  /** Attempts one top-level acquisition may make: the first and three retries. */
  const MaxAttempts := MaxRetries + 1

  /** What a retry does that is visible outside `Stats`: a read attempt of the
      metric, or clearing `Navigation.current_menu`. */
  datatype Event = Attempt(metric: Metric) | ClearCurrentMenu

  /** The state after an acquisition, the index of the next unused read
      attempt, and the events it caused in order. */
  datatype Acquired = Acquired(stats: Stats, next: nat, trace: seq<Event>)

  function Stored(s: Stats, m: Metric): int
  {
    match m
    case TotalXp => s.totalXp
    case Xp => s.xp
    case Pp => s.pp
    case Qp => s.qp
  }

  function Store(s: Stats, m: Metric, v: int): (r: Stats)
    ensures Stored(r, m) == v
    ensures forall m' :: m' != m ==> Stored(r, m') == Stored(s, m')
    ensures r.failures == s.failures && r.failed == s.failed
  {
    match m
    case TotalXp => s.(totalXp := v)
    case Xp => s.(xp := v)
    case Pp => s.(pp := v)
    case Qp => s.(qp := v)
  }

  /** Attempts left to an acquisition that starts with the given failure
      count: the counter is retried while it stays at most `MaxRetries`. */
  function Budget(failures: nat): nat
  {
    if failures >= MaxRetries then 1 else MaxAttempts - failures
  }

  /** `set_value_with_ocr(m)`, entered with state `s`, reading the screen from
      attempt `pos` on.  On a number it stores it and clears both failure
      fields; on an unreadable screen it counts the failure and retries while
      the count is at most three (clearing the current menu from the second
      failure on), and otherwise gives up with `failed` set and the count
      back at zero. */
  function Acquire(s: Stats, m: Metric, reader: Reader, pos: nat): (r: Acquired)
    // every return leaves the shared counter at zero
    ensures r.stats.failures == 0
    // at least one attempt, never more than the budget
    ensures pos < r.next <= pos + Budget(s.failures)
    // every attempt but the last one failed
    ensures forall i :: pos <= i < r.next - 1 ==> reader(i) == Unreadable
    // the failure flag reports exactly whether the last attempt failed
    ensures r.stats.failed <==> reader(r.next - 1) == Unreadable
    // a hard failure comes only once the whole budget is spent
    ensures r.stats.failed ==> r.next == pos + Budget(s.failures)
    ensures r.stats.failed ==> Stored(r.stats, m) == Stored(s, m)
    ensures !r.stats.failed ==> Stored(r.stats, m) == reader(r.next - 1).n
    ensures forall m' :: m' != m ==> Stored(r.stats, m') == Stored(s, m')
    // entered with f earlier failures: the first attempt, then the retries
    // numbered from f + 2, each with a menu clear before it from number 3 on
    ensures s.failures <= MaxRetries ==>
              r.trace == [Attempt(m)] + AttemptsTrace(m, s.failures + 2, s.failures + 1 + (r.next - pos))
    decreases Budget(s.failures)
  {
    match reader(pos)
    case Number(v) =>
      Acquired(Store(s, m, v).(failed := false, failures := 0), pos + 1, [Attempt(m)])
    case Unreadable =>
      var count := s.failures + 1;
      if count <= MaxRetries then
        var retry := Acquire(s.(failures := count), m, reader, pos + 1);
        AttemptsTraceUnfold(m, count + 1, count + (retry.next - pos), retry.trace);
        retry.(trace := [Attempt(m)] + (if count >= 2 then [ClearCurrentMenu] else []) + retry.trace)
      else
        Acquired(s.(failures := 0, failed := true), pos + 1, [Attempt(m)])
  }

  /** What attempt number `k` of one top-level acquisition adds to the trace:
      the menu is forgotten before it exactly when two or more failures
      precede it. */
  function AttemptEvents(m: Metric, k: nat): seq<Event>
  {
    (if k >= 3 then [ClearCurrentMenu] else []) + [Attempt(m)]
  }

  /** The events of attempts `from` up to (excluding) `to`. */
  function AttemptsTrace(m: Metric, from: nat, to: nat): seq<Event>
    decreases to - from
  {
    if to <= from then [] else AttemptEvents(m, from) + AttemptsTrace(m, from + 1, to)
  }

  /** One unfolding of `AttemptsTrace` behind a failed attempt: the menu
      clear (from attempt 3 on) and the retry's own trace. */
  lemma AttemptsTraceUnfold(m: Metric, k: nat, to: nat, retryTrace: seq<Event>)
    requires k < to
    requires retryTrace == [Attempt(m)] + AttemptsTrace(m, k + 1, to)
    ensures [Attempt(m)] + (if k >= 3 then [ClearCurrentMenu] else []) + retryTrace
         == [Attempt(m)] + AttemptsTrace(m, k, to)
  {
    assert AttemptsTrace(m, k, to) == AttemptEvents(m, k) + AttemptsTrace(m, k + 1, to);
  }

  /** The traces of one to four attempts, written out. */
  lemma TopLevelTraces(m: Metric, n: nat, t: seq<Event>)
    requires 1 <= n <= MaxAttempts
    requires t == [Attempt(m)] + AttemptsTrace(m, 2, 1 + n)
    ensures t == AttemptsTrace(m, 1, 1 + n)
    ensures n == 1 ==> t == [Attempt(m)]
    ensures n == 2 ==> t == [Attempt(m), Attempt(m)]
    ensures n == 3 ==> t == [Attempt(m), Attempt(m), ClearCurrentMenu, Attempt(m)]
    ensures n == 4 ==> t == [Attempt(m), Attempt(m), ClearCurrentMenu, Attempt(m), ClearCurrentMenu, Attempt(m)]
  {
    assert AttemptsTrace(m, 1, 1 + n) == [Attempt(m)] + AttemptsTrace(m, 2, 1 + n);
    if n >= 2 {
      assert AttemptsTrace(m, 2, 1 + n) == [Attempt(m)] + AttemptsTrace(m, 3, 1 + n);
    }
    if n >= 3 {
      assert AttemptsTrace(m, 3, 1 + n) == [ClearCurrentMenu, Attempt(m)] + AttemptsTrace(m, 4, 1 + n);
    }
    if n == 4 {
      assert AttemptsTrace(m, 4, 5) == [ClearCurrentMenu, Attempt(m)] + AttemptsTrace(m, 5, 5);
    }
  }

  /** From a clean counter, a call makes between one and four attempts and
      forgets the current menu exactly before attempts 3 and 4: never before
      the second attempt, never after the last. */
  lemma MenuClearedFromSecondFailure(s: Stats, m: Metric, reader: Reader, pos: nat)
    requires s.failures == 0
    ensures var r := Acquire(s, m, reader, pos);
            && 1 <= r.next - pos <= MaxAttempts
            && r.trace == AttemptsTrace(m, 1, 1 + (r.next - pos))
            && (r.next - pos == 1 ==> r.trace == [Attempt(m)])
            && (r.next - pos == 2 ==> r.trace == [Attempt(m), Attempt(m)])
            && (r.next - pos == 3 ==> r.trace == [Attempt(m), Attempt(m), ClearCurrentMenu, Attempt(m)])
            && (r.next - pos == 4 ==>
                  r.trace == [Attempt(m), Attempt(m), ClearCurrentMenu, Attempt(m), ClearCurrentMenu, Attempt(m)])
  {
    var r := Acquire(s, m, reader, pos);
    TopLevelTraces(m, r.next - pos, r.trace);
  }

  /** If attempt k (at most four) of a top-level call is the first readable
      one, the call stops there with the reading stored and both failure
      fields cleared. */
  lemma SuccessOnAttempt(s: Stats, m: Metric, reader: Reader, pos: nat, k: nat, v: int)
    requires s.failures == 0
    requires 1 <= k <= MaxAttempts
    requires forall i :: pos <= i < pos + k - 1 ==> reader(i) == Unreadable
    requires reader(pos + k - 1) == Number(v)
    ensures var r := Acquire(s, m, reader, pos);
            && r.next == pos + k
            && !r.stats.failed && r.stats.failures == 0
            && Stored(r.stats, m) == v
  {
  }

  /** Four unreadable screens in a row from a clean counter end in a hard
      failure: `failed` set, the counter back at zero and the stored value
      untouched. */
  lemma FourFailuresGiveUp(s: Stats, m: Metric, reader: Reader, pos: nat)
    requires s.failures == 0
    requires forall i :: pos <= i < pos + MaxAttempts ==> reader(i) == Unreadable
    ensures var r := Acquire(s, m, reader, pos);
            && r.next == pos + MaxAttempts
            && r.stats.failed && r.stats.failures == 0
            && Stored(r.stats, m) == Stored(s, m)
  {
    var r := Acquire(s, m, reader, pos);
    assert reader(r.next - 1) == Unreadable;
  }
}

=== FILE: estimator.dfy ===
/** The state of `EstimateRate`: per-metric baselines and differential logs,
    the shared elapsed-time log, the averaging mode and the window size, and
    its construction. */
module Estimator {
  import opened Numerics
  import opened Acquisition

  /** The averaging policy selected by the `mode` key. */
  datatype Mode = Average | MovingAverage

  /** The metrics that carry a differential log: XP, PP and QP (the total
      XP is only ever read, never logged). */
  type RatedMetric = m: Metric | m != TotalXp witness Xp

  /** The order in which one cycle acquires the tracked metrics. */
  const CycleOrder: seq<RatedMetric> := [Xp, Pp, Qp]

  /** The sample span, in seconds, the moving-average window covers. */
  const WindowSeconds := 120

  /** One metric's share of the estimator: its `track_*` flag, its baseline
      `last_*` and its differential log `d*_log`. */
  datatype Channel = Channel(tracked: bool, last: int, log: seq<int>)

  /** `EstimateRate` together with the shared `Stats` class state it reads
      and writes, and the index of the next screen read. */
  datatype Estimator = Estimator(
    mode: Mode,
    keepRuns: int,
    stats: Stats,
    readPos: nat,
    lastTimestamp: real,
    dtimeLog: seq<real>,
    xp: Channel,
    pp: Channel,
    qp: Channel)

  /** The `track_xp`, `track_pp` and `track_qp` flags. */
  datatype Tracking = Tracking(xp: bool, pp: bool, qp: bool)

  function Chan(e: Estimator, m: RatedMetric): Channel
  {
    if m == Xp then e.xp else if m == Pp then e.pp else e.qp
  }

  function WithChan(e: Estimator, m: RatedMetric, c: Channel): (r: Estimator)
    ensures Chan(r, m) == c
    ensures forall m': RatedMetric :: m' != m ==> Chan(r, m') == Chan(e, m')
    ensures SameClock(e, r) && r.stats == e.stats && r.readPos == e.readPos
  {
    if m == Xp then e.(xp := c) else if m == Pp then e.(pp := c) else e.(qp := c)
  }

  /** Mode, window, elapsed-time log and time baseline agree. */
  predicate SameClock(a: Estimator, b: Estimator)
  {
    && a.mode == b.mode
    && a.keepRuns == b.keepRuns
    && a.lastTimestamp == b.lastTimestamp
    && a.dtimeLog == b.dtimeLog
  }

  /** A tracked metric's log holds at least one delta per logged elapsed
      time (more after a cycle that failed on a later metric); an untracked
      metric's log is never written. */
  predicate ChannelInv(c: Channel, samples: nat)
  {
    if c.tracked then |c.log| >= samples else c.log == []
  }

  predicate Inv(e: Estimator)
  {
    && ChannelInv(e.xp, |e.dtimeLog|)
    && ChannelInv(e.pp, |e.dtimeLog|)
    && ChannelInv(e.qp, |e.dtimeLog|)
  }

  /** Result of the constructor: the estimator, or the `ZeroDivisionError`
      raised by `120 // duration` once the starting reads have been made. */
  datatype Init = Ready(est: Estimator) | ZeroDuration(stats: Stats, readPos: nat)

  /** One `if Stats.track_*: self.set_value_with_ocr(m)` of the constructor:
      an acquisition when the flag is set, nothing at all otherwise. */
  function AcquireIfTracked(tracked: bool, s: Stats, m: Metric, reader: Reader, pos: nat): (r: Acquired)
    ensures !tracked ==> r.stats == s && r.next == pos
    ensures tracked ==> pos < r.next
    ensures tracked && !r.stats.failed ==> reader(r.next - 1) == Number(Stored(r.stats, m))
    ensures tracked && r.stats.failed ==> Stored(r.stats, m) == Stored(s, m)
    ensures forall m' :: m' != m ==> Stored(r.stats, m') == Stored(s, m')
  {
    if tracked then Acquire(s, m, reader, pos) else Acquired(s, pos, [])
  }

  /** The three guarded reads of the constructor, in the order XP, PP, QP.
      Only the XP read touches the stored XP, so the XP baseline taken right
      after it is also the XP stored at the end. */
  function ConstructorReads(track: Tracking, s: Stats, reader: Reader, pos: nat): (r: Acquired)
    ensures var a1 := AcquireIfTracked(track.xp, s, Xp, reader, pos);
            var a2 := AcquireIfTracked(track.pp, a1.stats, Pp, reader, a1.next);
            && r == AcquireIfTracked(track.qp, a2.stats, Qp, reader, a2.next)
            && Stored(r.stats, Xp) == Stored(a1.stats, Xp)
    ensures !track.xp ==> Stored(r.stats, Xp) == Stored(s, Xp)
    ensures !track.pp ==> Stored(r.stats, Pp) == Stored(s, Pp)
    ensures !track.qp ==> Stored(r.stats, Qp) == Stored(s, Qp)
  {
    var a1 := AcquireIfTracked(track.xp, s, Xp, reader, pos);
    var a2 := AcquireIfTracked(track.pp, a1.stats, Pp, reader, a1.next);
    AcquireIfTracked(track.qp, a2.stats, Qp, reader, a2.next)
  }

  /** `EstimateRate.__init__` with the tracking flags set by `Tracker`: the
      time baseline is taken first, each tracked metric is read in the order
      XP, PP, QP (a failed read does not stop construction), the baselines
      are the stored values, the logs start empty, and the window keeps
      `120 // duration` runs. */
  function NewEstimator(duration: int, track: Tracking, mode: Mode, s: Stats, reader: Reader, pos: nat, now: real): (r: Init)
    ensures r.ZeroDuration? <==> duration == 0
    ensures r.Ready? ==>
      && Inv(r.est)
      && r.est.mode == mode
      && r.est.lastTimestamp == now
      && r.est.dtimeLog == [] && r.est.xp.log == [] && r.est.pp.log == [] && r.est.qp.log == []
      && r.est.xp.tracked == track.xp && r.est.pp.tracked == track.pp && r.est.qp.tracked == track.qp
      && (forall m: RatedMetric :: Chan(r.est, m).last == Stored(r.est.stats, m))
      && (forall m: RatedMetric :: !Chan(r.est, m).tracked ==> Stored(r.est.stats, m) == Stored(s, m))
      && (duration > 0 ==> duration * r.est.keepRuns <= WindowSeconds < duration * (r.est.keepRuns + 1))
      && (duration < 0 ==> duration * (r.est.keepRuns + 1) < WindowSeconds <= duration * r.est.keepRuns)
    // the stored values and read position are those after the guarded
    // reads, so every baseline above is a value just read or kept
    ensures var a1 := AcquireIfTracked(track.xp, s, Xp, reader, pos);
            var a2 := AcquireIfTracked(track.pp, a1.stats, Pp, reader, a1.next);
            var a3 := AcquireIfTracked(track.qp, a2.stats, Qp, reader, a2.next);
            && (r.Ready? ==> r.est.stats == a3.stats && r.est.readPos == a3.next)
            && (r.ZeroDuration? ==> r.stats == a3.stats && r.readPos == a3.next)
  {
    var a := ConstructorReads(track, s, reader, pos);
    if duration == 0 then
      ZeroDuration(a.stats, a.next)
    else
      Ready(Estimator(
        mode, FloorDiv(WindowSeconds, duration), a.stats, a.next, now, [],
        Channel(track.xp, Stored(a.stats, Xp), []),
        Channel(track.pp, Stored(a.stats, Pp), []),
        Channel(track.qp, Stored(a.stats, Qp), [])))
  }
}

=== FILE: logger.dfy ===
/** The differential logger: `EstimateRate.stop_watch`, which turns fresh
    readings into deltas against the baselines and appends one elapsed time
    per complete cycle, and `EstimateRate.update_xp`, which moves the XP
    baseline without logging. */
module Logger {
  import opened Numerics
  import opened Acquisition
  import opened Estimator

  /** The estimator after (part of) a cycle, and how many metrics of the
      cycle order were passed before a hard failure stopped it (all of them
      when none did). */
  datatype Cycle = Cycle(est: Estimator, reached: nat)

  predicate Distinct(ms: seq<RatedMetric>)
  {
    forall i, j :: 0 <= i < j < |ms| ==> ms[i] != ms[j]
  }

  /** `after` is `before` once reading `v` has been logged: the log grows by
      the single delta against the old baseline, and `v` is the new one. */
  predicate Logged(before: Channel, after: Channel, v: int)
  {
    after == Channel(before.tracked, v, before.log + [v - before.last])
  }

  /** What a cycle that got past a metric did to its channel: logged the
      stored reading when tracked, nothing otherwise. */
  predicate Passed(before: Channel, after: Channel, v: int)
  {
    if before.tracked then Logged(before, after, v) else after == before
  }

  /** One `if Stats.track_*:` block of `stop_watch` for a tracked metric:
      acquire it, and unless the acquisition hard-failed log its delta and
      move its baseline.  The result's `reached` is 1 on success, 0 on a
      hard failure. */
  function RecordOne(e: Estimator, m: RatedMetric, reader: Reader): (r: Cycle)
    ensures r.reached <= 1
    // the state after the block is that of the acquisition, and the block
    // got through exactly when the acquisition did not hard-fail
    ensures var a := Acquire(e.stats, m, reader, e.readPos);
            && r.est.stats == a.stats && r.est.readPos == a.next
            && (r.reached == 1 <==> !a.stats.failed)
    ensures SameClock(e, r.est)
    ensures forall m': RatedMetric :: m' != m ==> Chan(r.est, m') == Chan(e, m')
    ensures forall m': RatedMetric :: m' != m ==> Stored(r.est.stats, m') == Stored(e.stats, m')
    ensures r.reached == 1 ==> Logged(Chan(e, m), Chan(r.est, m), Stored(r.est.stats, m))
    ensures r.reached == 0 ==> Chan(r.est, m) == Chan(e, m) && r.est.stats.failed
  {
    var a := Acquire(e.stats, m, reader, e.readPos);
    var e1 := e.(stats := a.stats, readPos := a.next);
    if a.stats.failed then
      Cycle(e1, 0)
    else
      var c := Chan(e, m);
      var v := Stored(a.stats, m);
      Cycle(WithChan(e1, m, Channel(c.tracked, v, c.log + [v - c.last])), 1)
  }

  /** The `if Stats.track_*:` blocks of `stop_watch` for the metrics `ms`, in
      order: each tracked metric is acquired; on success its delta is logged
      and its baseline moved, and on a hard failure the cycle stops there,
      keeping what earlier metrics already logged. */
  function RecordFrom(e: Estimator, ms: seq<RatedMetric>, reader: Reader): (r: Cycle)
    requires Distinct(ms)
    ensures r.reached <= |ms|
    ensures SameClock(e, r.est)
    ensures forall m: RatedMetric :: m !in ms ==> Chan(r.est, m) == Chan(e, m)
    ensures forall m: RatedMetric :: m !in ms ==> Stored(r.est.stats, m) == Stored(e.stats, m)
    ensures forall i :: 0 <= i < r.reached ==> Passed(Chan(e, ms[i]), Chan(r.est, ms[i]), Stored(r.est.stats, ms[i]))
    ensures forall i :: r.reached <= i < |ms| ==> Chan(r.est, ms[i]) == Chan(e, ms[i])
    ensures r.reached < |ms| ==> Chan(e, ms[r.reached]).tracked && r.est.stats.failed
    decreases |ms|
  {
    if |ms| == 0 then Cycle(e, 0)
    else
      var m := ms[0];
      assert forall i :: 0 <= i < |ms[1..]| ==> ms[1..][i] == ms[i + 1] && ms[i + 1] != m;
      var step := if Chan(e, m).tracked then RecordOne(e, m, reader) else Cycle(e, 1);
      if step.reached == 0 then
        step
      else
        var rest := RecordFrom(step.est, ms[1..], reader);
        Cycle(rest.est, rest.reached + 1)
  }

  /** Some metric of `ms` is tracked. */
  predicate AnyTracked(e: Estimator, ms: seq<RatedMetric>)
  {
    exists i :: 0 <= i < |ms| && Chan(e, ms[i]).tracked
  }

  /** Some metric of `ms` is tracked exactly when its first one is or some
      later one is, in a state that agrees on the later channels. */
  lemma AnyTrackedUnfold(e: Estimator, e': Estimator, ms: seq<RatedMetric>)
    requires |ms| > 0
    requires forall m: RatedMetric :: m != ms[0] ==> Chan(e', m) == Chan(e, m)
    requires forall i :: 1 <= i < |ms| ==> ms[i] != ms[0]
    ensures AnyTracked(e, ms) <==> Chan(e, ms[0]).tracked || AnyTracked(e', ms[1..])
  {
    if AnyTracked(e', ms[1..]) {
      var i :| 0 <= i < |ms[1..]| && Chan(e', ms[1..][i]).tracked;
      assert Chan(e, ms[i + 1]).tracked;
    }
    if AnyTracked(e, ms) && !Chan(e, ms[0]).tracked {
      var i :| 0 <= i < |ms| && Chan(e, ms[i]).tracked;
      assert Chan(e', ms[1..][i - 1]).tracked;
    }
  }

  /** Reading only moves forward, and it moves exactly when some metric of
      the run is tracked; with none tracked nothing is read, the stored
      values stay and the run gets through. */
  lemma {:induction false} RecordFromMovesForward(e: Estimator, ms: seq<RatedMetric>, reader: Reader)
    requires Distinct(ms)
    ensures var r := RecordFrom(e, ms, reader);
            && r.est.readPos >= e.readPos
            && (AnyTracked(e, ms) <==> r.est.readPos > e.readPos)
            && (!AnyTracked(e, ms) ==> r.est.stats == e.stats && r.reached == |ms|)
    decreases |ms|
  {
    if |ms| > 0 {
      var m := ms[0];
      assert forall i :: 0 <= i < |ms[1..]| ==> ms[1..][i] == ms[i + 1] && ms[i + 1] != m;
      var step := if Chan(e, m).tracked then RecordOne(e, m, reader) else Cycle(e, 1);
      if step.reached != 0 {
        RecordFromMovesForward(step.est, ms[1..], reader);
        AnyTrackedUnfold(e, step.est, ms);
      }
    }
  }

  /** A run that read the screen gets through exactly when its last
      acquisition did not hard-fail: the cycle stops at the first hard
      failure and not otherwise. */
  lemma {:induction false} RecordFromStopsAtFailure(e: Estimator, ms: seq<RatedMetric>, reader: Reader)
    requires Distinct(ms)
    ensures var r := RecordFrom(e, ms, reader);
            r.est.readPos > e.readPos ==> (r.reached == |ms| <==> !r.est.stats.failed)
    decreases |ms|
  {
    if |ms| > 0 {
      var m := ms[0];
      assert forall i :: 0 <= i < |ms[1..]| ==> ms[1..][i] == ms[i + 1] && ms[i + 1] != m;
      var step := if Chan(e, m).tracked then RecordOne(e, m, reader) else Cycle(e, 1);
      if step.reached != 0 {
        RecordFromStopsAtFailure(step.est, ms[1..], reader);
        RecordFromMovesForward(step.est, ms[1..], reader);
      }
    }
  }

  /** The screen showed `v` at some attempt in `[from, to)`. */
  predicate ReadBetween(reader: Reader, from: nat, to: nat, v: int)
  {
    exists k :: from <= k < to && reader(k) == Number(v)
  }

  lemma ReadBetweenWiden(reader: Reader, from: nat, to: nat, from': nat, to': nat, v: int)
    requires ReadBetween(reader, from, to, v)
    requires from' <= from && to <= to'
    ensures ReadBetween(reader, from', to', v)
  {
    var k :| from <= k < to && reader(k) == Number(v);
    assert from' <= k < to';
  }

  /** Every tracked metric a run got past holds a value the screen showed
      during the run. */
  lemma {:induction false} RecordFromValuesRead(e: Estimator, ms: seq<RatedMetric>, reader: Reader)
    requires Distinct(ms)
    ensures var r := RecordFrom(e, ms, reader);
            forall i :: 0 <= i < r.reached && Chan(e, ms[i]).tracked ==>
              ReadBetween(reader, e.readPos, r.est.readPos, Stored(r.est.stats, ms[i]))
    decreases |ms|
  {
    if |ms| > 0 {
      var m := ms[0];
      assert forall i :: 0 <= i < |ms[1..]| ==> ms[1..][i] == ms[i + 1] && ms[i + 1] != m;
      var step := if Chan(e, m).tracked then RecordOne(e, m, reader) else Cycle(e, 1);
      if step.reached != 0 {
        RecordFromValuesRead(step.est, ms[1..], reader);
        RecordFromMovesForward(step.est, ms[1..], reader);
        var rest := RecordFrom(step.est, ms[1..], reader);
        var r := RecordFrom(e, ms, reader);
        assert r == Cycle(rest.est, rest.reached + 1);
        assert e.readPos <= step.est.readPos <= rest.est.readPos;
        forall i | 0 <= i < r.reached && Chan(e, ms[i]).tracked
          ensures ReadBetween(reader, e.readPos, r.est.readPos, Stored(r.est.stats, ms[i]))
        {
          if i == 0 {
            HeadValueRead(e, m, reader, step, rest);
          } else {
            assert ms[1..][i - 1] == ms[i];
            assert Chan(step.est, ms[1..][i - 1]) == Chan(e, ms[i]);
            ReadBetweenWiden(reader, step.est.readPos, rest.est.readPos, e.readPos, r.est.readPos, Stored(r.est.stats, ms[i]));
          }
        }
      }
    }
  }

  /** The first block's reading survives to the end of the run. */
  lemma HeadValueRead(e: Estimator, m: RatedMetric, reader: Reader, step: Cycle, rest: Cycle)
    requires Chan(e, m).tracked && step == RecordOne(e, m, reader) && step.reached == 1
    requires rest.est.readPos >= step.est.readPos
    requires Stored(rest.est.stats, m) == Stored(step.est.stats, m)
    ensures ReadBetween(reader, e.readPos, rest.est.readPos, Stored(rest.est.stats, m))
  {
    var k := step.est.readPos - 1;
    assert e.readPos <= k < rest.est.readPos && reader(k) == Number(Stored(rest.est.stats, m));
  }

  /** `stop_watch()`, with `t1` and `t2` the two clock readings it takes at
      its end (the elapsed time is measured with the first, the new time
      baseline is the second).  A tracked metric the cycle got past has
      logged one delta; the failing metric and the ones after it are
      untouched; the elapsed time is logged only when the cycle got through
      all metrics, and after a hard failure the time baseline restarts at
      `t1`. */
  function StopWatch(e: Estimator, reader: Reader, t1: real, t2: real): (r: Cycle)
    ensures r.reached <= |CycleOrder|
    ensures r.est.mode == e.mode && r.est.keepRuns == e.keepRuns
    ensures forall i :: 0 <= i < r.reached ==>
              Passed(Chan(e, CycleOrder[i]), Chan(r.est, CycleOrder[i]), Stored(r.est.stats, CycleOrder[i]))
    ensures forall i :: r.reached <= i < |CycleOrder| ==> Chan(r.est, CycleOrder[i]) == Chan(e, CycleOrder[i])
    ensures r.reached < |CycleOrder| ==>
              && Chan(e, CycleOrder[r.reached]).tracked
              && r.est.stats.failed
              && r.est.dtimeLog == e.dtimeLog
              && r.est.lastTimestamp == t1
    ensures r.reached == |CycleOrder| ==>
              && r.est.dtimeLog == e.dtimeLog + [t1 - e.lastTimestamp]
              && r.est.lastTimestamp == t2
  {
    var c := RecordFrom(e, CycleOrder, reader);
    if c.reached < |CycleOrder| then
      Cycle(c.est.(lastTimestamp := t1), c.reached)
    else
      Cycle(c.est.(dtimeLog := c.est.dtimeLog + [t1 - c.est.lastTimestamp], lastTimestamp := t2), c.reached)
  }

  /** How a cycle's outcome follows from the screen: reading only moves
      forward, and nothing is read when no metric is tracked.  Otherwise the
      cycle completes exactly when no acquisition hard-failed.  Every
      tracked metric the cycle got past holds a value read during it. */
  lemma StopWatchReads(e: Estimator, reader: Reader, t1: real, t2: real)
    ensures var r := StopWatch(e, reader, t1, t2);
            && r.est.readPos >= e.readPos
            && (!(e.xp.tracked || e.pp.tracked || e.qp.tracked) ==>
                  r.est.stats == e.stats && r.est.readPos == e.readPos && r.reached == |CycleOrder|)
            && ((e.xp.tracked || e.pp.tracked || e.qp.tracked) ==>
                  (r.reached == |CycleOrder| <==> !r.est.stats.failed))
            && (forall i :: 0 <= i < r.reached && Chan(e, CycleOrder[i]).tracked ==>
                  ReadBetween(reader, e.readPos, r.est.readPos, Stored(r.est.stats, CycleOrder[i])))
  {
    RecordFromMovesForward(e, CycleOrder, reader);
    RecordFromStopsAtFailure(e, CycleOrder, reader);
    RecordFromValuesRead(e, CycleOrder, reader);
    assert CycleOrder[0] == Xp && CycleOrder[1] == Pp && CycleOrder[2] == Qp;
    assert AnyTracked(e, CycleOrder) <==> e.xp.tracked || e.pp.tracked || e.qp.tracked;
  }

  /** Each metric of a cycle either logged a delta or stayed as it was, and a
      metric changed only if every metric before it in the cycle got through. */
  lemma StopWatchChannels(e: Estimator, reader: Reader, t1: real, t2: real, m: RatedMetric)
    ensures var r := StopWatch(e, reader, t1, t2);
            && (Chan(r.est, m) == Chan(e, m) || (Chan(e, m).tracked && Logged(Chan(e, m), Chan(r.est, m), Stored(r.est.stats, m))))
            && (!Chan(e, m).tracked ==> Chan(r.est, m) == Chan(e, m))
            && (r.reached == |CycleOrder| ==> Passed(Chan(e, m), Chan(r.est, m), Stored(r.est.stats, m)))
  {
  }

  /** A cycle keeps the estimator invariant: deltas are logged only for
      tracked metrics, and an elapsed time only after every tracked metric
      logged one. */
  lemma StopWatchKeepsInv(e: Estimator, reader: Reader, t1: real, t2: real)
    requires Inv(e)
    ensures Inv(StopWatch(e, reader, t1, t2).est)
  {
    var r := StopWatch(e, reader, t1, t2);
    forall m: RatedMetric
      ensures ChannelInv(Chan(r.est, m), |r.est.dtimeLog|)
    {
      StopWatchChannels(e, reader, t1, t2, m);
      assert ChannelInv(Chan(e, m), |e.dtimeLog|);
    }
    assert ChannelInv(Chan(r.est, Xp), |r.est.dtimeLog|);
    assert ChannelInv(Chan(r.est, Pp), |r.est.dtimeLog|);
    assert ChannelInv(Chan(r.est, Qp), |r.est.dtimeLog|);
  }

  /** Logging one reading leaves the sum of the log minus the baseline
      unchanged. */
  lemma LoggedTelescopes(before: Channel, after: Channel, v: int)
    requires Logged(before, after, v)
    ensures Sum(after.log) - after.last == Sum(before.log) - before.last
  {
    SumAppend(before.log, v - before.last);
  }

  /** For every metric the sum of its log minus its baseline survives a
      cycle: each delta logged is exactly the move of the baseline, so the
      deltas telescope. */
  lemma StopWatchTelescopes(e: Estimator, reader: Reader, t1: real, t2: real, m: RatedMetric)
    ensures var c := Chan(StopWatch(e, reader, t1, t2).est, m);
            Sum(c.log) - c.last == Sum(Chan(e, m).log) - Chan(e, m).last
  {
    var r := StopWatch(e, reader, t1, t2);
    StopWatchChannels(e, reader, t1, t2, m);
    if Chan(r.est, m) != Chan(e, m) {
      LoggedTelescopes(Chan(e, m), Chan(r.est, m), Stored(r.est.stats, m));
    }
  }

  /** A complete cycle adds the span from the old time baseline to the first
      clock reading to the total elapsed time. */
  lemma StopWatchElapsed(e: Estimator, reader: Reader, t1: real, t2: real)
    ensures var r := StopWatch(e, reader, t1, t2);
            r.reached == |CycleOrder| ==> SumReal(r.est.dtimeLog) == SumReal(e.dtimeLog) + (t1 - e.lastTimestamp)
  {
    SumRealAppend(e.dtimeLog, t1 - e.lastTimestamp);
  }

  /** What a cycle keeps, in one statement: the invariant, every metric's
      telescoped sum, and at most one new elapsed time. */
  lemma StopWatchKeeps(e: Estimator, reader: Reader, t1: real, t2: real)
    ensures var r := StopWatch(e, reader, t1, t2).est;
            && (Inv(e) ==> Inv(r))
            && (forall m: RatedMetric :: Sum(Chan(r, m).log) - Chan(r, m).last == Sum(Chan(e, m).log) - Chan(e, m).last)
            && |r.dtimeLog| <= |e.dtimeLog| + 1
            && r.mode == e.mode && r.keepRuns == e.keepRuns
  {
    if Inv(e) {
      StopWatchKeepsInv(e, reader, t1, t2);
    }
    forall m: RatedMetric
      ensures var r := StopWatch(e, reader, t1, t2).est;
              Sum(Chan(r, m).log) - Chan(r, m).last == Sum(Chan(e, m).log) - Chan(e, m).last
    {
      StopWatchTelescopes(e, reader, t1, t2, m);
    }
  }

  /** The XP value a cycle's first acquisition stores. */
  function FirstXpRead(s: Stats, pos: nat, reader: Reader): int
  {
    Acquire(s, Xp, reader, pos).stats.xp
  }

  /** A cycle that gets past a tracked XP logs one XP delta against the old
      baseline. */
  lemma CycleLogsXp(e: Estimator, reader: Reader, t1: real, t2: real)
    requires e.xp.tracked
    ensures var r := StopWatch(e, reader, t1, t2);
            r.reached >= 1 ==> r.est.xp.log == e.xp.log + [r.est.stats.xp - e.xp.last]
  {
    assert CycleOrder[0] == Xp;
  }

  /** The XP a cycle that got past a tracked XP holds is that of its first
      acquisition: the PP and QP reads after it leave the stored XP alone. */
  lemma CycleReadsXpFirst(e: Estimator, reader: Reader, t1: real, t2: real)
    requires e.xp.tracked
    ensures var r := StopWatch(e, reader, t1, t2);
            r.reached >= 1 ==> r.est.stats.xp == FirstXpRead(e.stats, e.readPos, reader)
  {
    assert CycleOrder[0] == Xp;
    RecordFromKeepsFirstRead(e, CycleOrder, reader);
  }

  /** Once the first metric of `ms` got through, its stored value is the one
      its own acquisition read: no later acquisition overwrites it. */
  lemma RecordFromKeepsFirstRead(e: Estimator, ms: seq<RatedMetric>, reader: Reader)
    requires Distinct(ms) && |ms| > 0 && Chan(e, ms[0]).tracked
    ensures var c := RecordFrom(e, ms, reader);
            c.reached >= 1 ==> Stored(c.est.stats, ms[0]) == Stored(Acquire(e.stats, ms[0], reader, e.readPos).stats, ms[0])
  {
    var step := RecordOne(e, ms[0], reader);
    if step.reached != 0 {
      assert ms[0] !in ms[1..];
      var rest := RecordFrom(step.est, ms[1..], reader);
      assert Stored(rest.est.stats, ms[0]) == Stored(step.est.stats, ms[0]);
    }
  }

  /** With `update_xp()` before it, a cycle measures XP from the stored XP
      value rather than from the old baseline. */
  lemma UpdateXpRebasesNextDelta(e: Estimator, reader: Reader, t1: real, t2: real)
    requires e.xp.tracked
    ensures var adjusted := StopWatch(UpdateXp(e), reader, t1, t2);
            adjusted.reached >= 1 ==> adjusted.est.xp.log == e.xp.log + [adjusted.est.stats.xp - e.stats.xp]
  {
    var a := UpdateXp(e);
    assert a.xp.log == e.xp.log && a.xp.last == e.stats.xp && a.xp.tracked;
    CycleLogsXp(a, reader, t1, t2);
  }

  /** `update_xp()` does not change what the next cycle reads for XP. */
  lemma UpdateXpKeepsNextRead(e: Estimator, reader: Reader, t1: real, t2: real)
    requires e.xp.tracked
    ensures var adjusted := StopWatch(UpdateXp(e), reader, t1, t2);
            var unadjusted := StopWatch(e, reader, t1, t2);
            adjusted.reached >= 1 && unadjusted.reached >= 1 ==> adjusted.est.stats.xp == unadjusted.est.stats.xp
  {
    CycleReadsXpFirst(UpdateXp(e), reader, t1, t2);
    CycleReadsXpFirst(e, reader, t1, t2);
  }

  /** `update_xp()`: the XP baseline becomes the XP value last stored; no
      log, flag or other baseline changes, and nothing is read. */
  function UpdateXp(e: Estimator): (r: Estimator)
    ensures r.xp.last == Stored(e.stats, Xp)
    ensures r.xp.log == e.xp.log && r.xp.tracked == e.xp.tracked
    ensures r.pp == e.pp && r.qp == e.qp
    ensures SameClock(e, r) && r.stats == e.stats && r.readPos == e.readPos
  {
    e.(xp := e.xp.(last := e.stats.xp))
  }
}

=== FILE: numerics.dfy ===
/** Python arithmetic the rate tracker relies on: `sum` over a list, `round`
    (ties to even) and floor division `//`. */
module Numerics {

  /** Python's `sum` over a list of integers. */
  function Sum(s: seq<int>): int
  {
    if |s| == 0 then 0 else s[0] + Sum(s[1..])
  }

  /** Python's `sum` over a list of elapsed times. */
  function SumReal(s: seq<real>): real
  {
    if |s| == 0 then 0.0 else s[0] + SumReal(s[1..])
  }

  /** Appending one entry to a log adds exactly that entry to its sum. */
  lemma {:induction false} SumAppend(s: seq<int>, x: int)
    ensures Sum(s + [x]) == Sum(s) + x
  {
    if |s| == 0 {
      assert s + [x] == [x];
    } else {
      assert (s + [x])[1..] == s[1..] + [x];
      SumAppend(s[1..], x);
    }
  }

  lemma {:induction false} SumRealAppend(s: seq<real>, x: real)
    ensures SumReal(s + [x]) == SumReal(s) + x
  {
    if |s| == 0 {
      assert s + [x] == [x];
    } else {
      assert (s + [x])[1..] == s[1..] + [x];
      SumRealAppend(s[1..], x);
    }
  }

  /** `n` is what Python's `round(x)` gives: the nearest integer, and on a
      tie the even one of the two neighbours. */
  predicate RoundsTo(x: real, n: int)
  {
    var d := n as real - x;
    && -0.5 <= d <= 0.5
    && (d == 0.5 || d == -0.5 ==> n % 2 == 0)
  }

  /** Python's `round` on a number, with exact (not floating-point) arithmetic. */
  function RoundHalfEven(x: real): (n: int)
    ensures RoundsTo(x, n)
  {
    var f := x.Floor;
    var frac := x - f as real;
    if frac < 0.5 then f
    else if frac > 0.5 then f + 1
    else if f % 2 == 0 then f
    else f + 1
  }

  /** At most one integer is the rounding of a number, so `RoundsTo` pins
      down `round` completely. */
  lemma RoundsToUnique(x: real, n: int, k: int)
    requires RoundsTo(x, n) && RoundsTo(x, k)
    ensures n == k
  {
  }

  /** Python's floor division `a // b`; the caller has ruled out `b == 0`,
      for which Python raises `ZeroDivisionError`. */
  function FloorDiv(a: int, b: int): (q: int)
    requires b != 0
    ensures b > 0 ==> b * q <= a < b * q + b
    ensures b < 0 ==> b * q + b < a <= b * q
  {
    if b > 0 || a % b == 0 then a / b else a / b - 1
  }
}

=== FILE: rates.dfy ===
/** The rate estimator: `EstimateRate.__average`, `__moving_average` and
    `rates`.  A rate is the sum of a metric's deltas over the sum of the
    elapsed times, per hour, rounded; a zero total time gives zero rates.
    The moving average first evicts the oldest sample, at most one per
    call, once more than `keep_runs` are logged. */
module RateEstimate {
  import opened Numerics
  import opened Acquisition
  import opened Estimator

  const SecondsPerHour := 3600.0

  /** The triple `rates()` returns: XP, PP and QP per hour. */
  datatype HourlyRates = HourlyRates(xph: int, pph: int, qph: int)

  /** Outcome of a call: the rates and the estimator after any eviction, or
      the `IndexError` of popping an empty list, with the pops made before
      it already applied. */
  datatype RatesResult = Reported(rates: HourlyRates, est: Estimator) | Crashed(est: Estimator)

  /** Outcome of the eviction step, usable with `:-`. */
  datatype Popped = Popped(est: Estimator) | IndexError(partial: Estimator) {
    predicate IsFailure()
    {
      IndexError?
    }

    function PropagateFailure(): Popped
      requires IndexError?
    {
      this
    }

    function Extract(): Estimator
      requires Popped?
    {
      est
    }
  }

  /** A log total per hour of logged time. */
  function PerHour(total: int, time: real): real
    requires time != 0.0
  {
    SecondsPerHour * (total as real / time)
  }

  /** `h` is what `rates()` reports for the logs of `e`: zero everywhere when
      the logged time sums to zero, and otherwise each metric's delta total
      per hour of logged time, rounded as Python's `round` does. */
  predicate IsHourlyRates(e: Estimator, h: HourlyRates)
  {
    var time := SumReal(e.dtimeLog);
    if time == 0.0 then
      h == HourlyRates(0, 0, 0)
    else
      && RoundsTo(PerHour(Sum(e.xp.log), time), h.xph)
      && RoundsTo(PerHour(Sum(e.pp.log), time), h.pph)
      && RoundsTo(PerHour(Sum(e.qp.log), time), h.qph)
  }

  /** The sum-over-sum ratio of `__average`, scaled and rounded by `rates`;
      the `ZeroDivisionError` of an empty or zero-sum time log becomes
      `(0, 0, 0)`. */
  function AverageRates(e: Estimator): (h: HourlyRates)
    ensures IsHourlyRates(e, h)
  {
    var time := SumReal(e.dtimeLog);
    if time == 0.0 then HourlyRates(0, 0, 0)
    else HourlyRates(
      RoundHalfEven(PerHour(Sum(e.xp.log), time)),
      RoundHalfEven(PerHour(Sum(e.pp.log), time)),
      RoundHalfEven(PerHour(Sum(e.qp.log), time)))
  }

  /** The rates of a set of logs are unique: whichever computation meets
      `IsHourlyRates` gives the same triple. */
  lemma HourlyRatesUnique(e: Estimator, h: HourlyRates, k: HourlyRates)
    requires IsHourlyRates(e, h) && IsHourlyRates(e, k)
    ensures h == k
  {
  }

  /** `t` is `s` without its first element. */
  predicate DropsHead<T(==)>(s: seq<T>, t: seq<T>)
  {
    |s| > 0 && t == s[1..]
  }

  /** `after` is `before` with its oldest delta evicted when `pop`, and
      `before` unchanged otherwise. */
  predicate ChannelEvicted(before: Channel, after: Channel, pop: bool)
  {
    if pop then
      after.tracked == before.tracked && after.last == before.last && DropsHead(before.log, after.log)
    else
      after == before
  }

  /** `r` is `e` after one eviction: the oldest elapsed time is gone, and
      the oldest delta of the XP and PP logs when tracked and of the QP log
      when `popQp`; nothing else changed. */
  predicate EvictedOnce(e: Estimator, r: Estimator, popQp: bool)
  {
    && DropsHead(e.dtimeLog, r.dtimeLog)
    && ChannelEvicted(e.xp, r.xp, e.xp.tracked)
    && ChannelEvicted(e.pp, r.pp, e.pp.tracked)
    && ChannelEvicted(e.qp, r.qp, popQp)
    && r.mode == e.mode && r.keepRuns == e.keepRuns
    && r.lastTimestamp == e.lastTimestamp
    && r.stats == e.stats && r.readPos == e.readPos
  }

  /** `list.pop(0)` on one metric's log. */
  function PopLog(e: Estimator, m: RatedMetric): (r: Popped)
    ensures r.IndexError? <==> Chan(e, m).log == []
    ensures r.IndexError? ==> r.partial == e
    ensures r.Popped? ==>
              && ChannelEvicted(Chan(e, m), Chan(r.est, m), true)
              && (forall m': RatedMetric :: m' != m ==> Chan(r.est, m') == Chan(e, m'))
              && SameClock(e, r.est) && r.est.stats == e.stats && r.est.readPos == e.readPos
  {
    var c := Chan(e, m);
    if |c.log| == 0 then IndexError(e) else Popped(WithChan(e, m, c.(log := c.log[1..])))
  }

  /** The eviction step of `__moving_average` as written: the QP log is
      popped under the `track_pp` flag (classes/stats.py line 97). */
  function EvictAsWritten(e: Estimator): (r: Popped)
    ensures |e.dtimeLog| <= e.keepRuns ==> r == Popped(e)
    ensures r.IndexError? ==> |e.dtimeLog| > e.keepRuns
    ensures r.Popped? && |e.dtimeLog| > e.keepRuns ==> EvictedOnce(e, r.est, e.pp.tracked)
    // a crash comes after the time log's pop, which stays applied
    ensures r.IndexError? && |e.dtimeLog| > 0 ==> DropsHead(e.dtimeLog, r.partial.dtimeLog)
  {
    if |e.dtimeLog| <= e.keepRuns then Popped(e)
    else if |e.dtimeLog| == 0 then IndexError(e)
    else
      var e1 := e.(dtimeLog := e.dtimeLog[1..]);
      var e2 :- if e.xp.tracked then PopLog(e1, Xp) else Popped(e1);
      var e3 :- if e.pp.tracked then PopLog(e2, Pp) else Popped(e2);
      if e.pp.tracked then PopLog(e3, Qp) else Popped(e3)
  }

  /** The eviction step with the QP log popped under its own `track_qp`
      flag, as the other two logs are. */
  function EvictCorrected(e: Estimator): (r: Popped)
    // with the invariant and a non-negative window, eviction never fails
    ensures Inv(e) && e.keepRuns >= 0 ==> r.Popped?
    ensures |e.dtimeLog| <= e.keepRuns ==> r == Popped(e)
    ensures r.IndexError? ==> |e.dtimeLog| > e.keepRuns
    // every tracked log loses its oldest entry together with the time log
    ensures r.Popped? && |e.dtimeLog| > e.keepRuns ==> EvictedOnce(e, r.est, e.qp.tracked)
    ensures Inv(e) && r.Popped? ==> Inv(r.est)
  {
    if |e.dtimeLog| <= e.keepRuns then Popped(e)
    else if |e.dtimeLog| == 0 then IndexError(e)
    else
      var e1 := e.(dtimeLog := e.dtimeLog[1..]);
      var e2 :- if e.xp.tracked then PopLog(e1, Xp) else Popped(e1);
      var e3 :- if e.pp.tracked then PopLog(e2, Pp) else Popped(e2);
      if e.qp.tracked then PopLog(e3, Qp) else Popped(e3)
  }

  /** `rates()`: in average mode the logs are read and never changed; in
      moving-average mode at most one oldest sample is evicted first, and
      only when more than `keep_runs` elapsed times are logged.  The rates
      reported are those of the logs as they are after eviction. */
  function Rates(e: Estimator): (r: RatesResult)
    ensures r.Reported? ==> IsHourlyRates(r.est, r.rates)
    ensures e.mode == Average ==> r.Reported? && r.est == e
    ensures e.mode == MovingAverage && |e.dtimeLog| <= e.keepRuns ==> r.Reported? && r.est == e
    ensures e.mode == MovingAverage && |e.dtimeLog| > e.keepRuns && r.Reported? ==>
              EvictedOnce(e, r.est, e.pp.tracked)
    ensures r.Crashed? ==> e.mode == MovingAverage && |e.dtimeLog| > e.keepRuns
  {
    match e.mode
    case Average => Reported(AverageRates(e), e)
    case MovingAverage =>
      match EvictAsWritten(e)
      case IndexError(partial) => Crashed(partial)
      case Popped(e') => Reported(AverageRates(e'), e')
  }

  /** `rates()` with the corrected eviction. */
  function RatesCorrected(e: Estimator): (r: RatesResult)
    ensures r.Reported? ==> IsHourlyRates(r.est, r.rates)
    ensures Inv(e) && e.keepRuns >= 0 ==> r.Reported? && Inv(r.est)
    ensures e.mode == Average ==> r.Reported? && r.est == e
    ensures e.mode == MovingAverage && |e.dtimeLog| <= e.keepRuns ==> r.Reported? && r.est == e
    ensures e.mode == MovingAverage && |e.dtimeLog| > e.keepRuns && r.Reported? ==>
              EvictedOnce(e, r.est, e.qp.tracked)
  {
    match e.mode
    case Average => Reported(AverageRates(e), e)
    case MovingAverage =>
      match EvictCorrected(e)
      case IndexError(partial) => Crashed(partial)
      case Popped(e') => Reported(AverageRates(e'), e')
  }

  /** With the estimator invariant and a non-negative window, `rates()` as
      written fails exactly when the window overflows in moving-average mode
      while PP is tracked and QP is not: the QP log was never written, and
      line 97 pops it anyway. */
  lemma RatesCrashExactly(e: Estimator)
    requires Inv(e) && e.keepRuns >= 0
    ensures Rates(e).Crashed? <==>
              e.mode == MovingAverage && |e.dtimeLog| > e.keepRuns && e.pp.tracked && !e.qp.tracked
  {
  }

  /** The silent effect of line 97: with QP tracked and PP untracked, an
      eviction drops the oldest elapsed time but never a QP delta, so the
      QP rate divides a growing QP history by a windowed time. */
  lemma RatesKeepsQpHistory(e: Estimator)
    requires Inv(e) && e.keepRuns >= 0
    requires e.mode == MovingAverage && |e.dtimeLog| > e.keepRuns
    requires e.qp.tracked && !e.pp.tracked
    ensures var r := Rates(e);
            && r.Reported?
            && r.est.qp.log == e.qp.log
            && |r.est.dtimeLog| == |e.dtimeLog| - 1
            && |r.est.qp.log| > |r.est.dtimeLog|
    ensures var c := RatesCorrected(e);
            && c.Reported?
            && DropsHead(e.qp.log, c.est.qp.log)
  {
  }

  /** When `rates()` as written returns, the estimator invariant still
      holds. */
  lemma RatesKeepInv(e: Estimator)
    requires Inv(e)
    ensures Rates(e).Reported? ==> Inv(Rates(e).est)
  {
  }

  /** The two evictions agree whenever PP and QP are both tracked or both
      untracked; they differ only where line 97 consults the wrong flag. */
  lemma RatesAgreeWhenFlagsMatch(e: Estimator)
    requires e.pp.tracked == e.qp.tracked
    ensures Rates(e) == RatesCorrected(e)
  {
  }
}

=== FILE: scenarios.dfy ===
/** Concrete runs of the model: a four-run moving-average window with a
    30 s duration, the two averaging modes diverging, a read that needs all
    its retries, and the two ways the logs can fall out of step. */
module Scenarios {
  import opened Numerics
  import opened Acquisition
  import opened Estimator
  import opened Logger
  import opened RateEstimate

  /** A 30-second sample duration keeps four runs. */
  const ExampleKeepRuns := FloorDiv(WindowSeconds, 30)

  /** XP alone tracked, with five samples of the given deltas and ten
      seconds each logged. */
  function XpOnly(mode: Mode, deltas: seq<int>): (e: Estimator)
    ensures Inv(e) <==> |deltas| >= 5
  {
    Estimator(mode, ExampleKeepRuns, InitialStats, 0, 0.0, [10.0, 10.0, 10.0, 10.0, 10.0],
              Channel(true, 0, deltas), Channel(false, 0, []), Channel(false, 0, []))
  }

  /** Five samples of 100 XP in 10 s with a window of four: one call evicts
      the oldest sample and reports 3600 * 400 / 40 = 36000 per hour. */
  lemma MovingWindowExample()
    ensures ExampleKeepRuns == 4
    ensures var r := Rates(XpOnly(MovingAverage, [100, 100, 100, 100, 100]));
            && r.Reported?
            && r.est.xp.log == [100, 100, 100, 100]
            && r.est.dtimeLog == [10.0, 10.0, 10.0, 10.0]
            && r.rates == HourlyRates(36000, 0, 0)
  {
  }

  /** The average mode over the same five samples keeps them all and gives
      the same 36000; with a larger first delta the two modes part: the
      average still counts it, the window has evicted it. */
  lemma ModesDiverge()
    ensures Rates(XpOnly(Average, [100, 100, 100, 100, 100])).rates.xph == 36000
    ensures Rates(XpOnly(Average, [400, 100, 100, 100, 100])).rates.xph == 57600
    ensures Rates(XpOnly(MovingAverage, [400, 100, 100, 100, 100])).rates.xph == 36000
  {
    var a1 := Rates(XpOnly(Average, [100, 100, 100, 100, 100]));
    assert SumReal(a1.est.dtimeLog) == 50.0 && Sum(a1.est.xp.log) == 500;
    RoundsToUnique(36000.0, a1.rates.xph, 36000);
    var a2 := Rates(XpOnly(Average, [400, 100, 100, 100, 100]));
    assert Sum(a2.est.xp.log) == 800;
    RoundsToUnique(57600.0, a2.rates.xph, 57600);
    var m := Rates(XpOnly(MovingAverage, [400, 100, 100, 100, 100]));
    assert SumReal(m.est.dtimeLog) == 40.0 && Sum(m.est.xp.log) == 400;
    RoundsToUnique(36000.0, m.rates.xph, 36000);
  }

  /** A screen that is unreadable three times and then shows 42. */
  function ThirdRetryReads(i: nat): Reading
  {
    if i < 3 then Unreadable else Number(42)
  }

  /** Three failures then a success: the fourth attempt stores 42, with no
      hard failure and the counter back at zero, after the menu was cleared
      twice. */
  lemma ThreeFailuresThenSuccess()
    ensures var r := Acquire(InitialStats, Xp, ThirdRetryReads, 0);
            && r.next == 4 && !r.stats.failed && r.stats.failures == 0 && r.stats.xp == 42
            && r.trace == [Attempt(Xp), Attempt(Xp), ClearCurrentMenu, Attempt(Xp), ClearCurrentMenu, Attempt(Xp)]
  {
  }

  /** A screen that shows 10 once and is unreadable afterwards. */
  function ReadableOnce(i: nat): Reading
  {
    if i == 0 then Number(10) else Unreadable
  }

  /** All three metrics tracked, nothing logged yet. */
  const Fresh := Estimator(MovingAverage, 4, InitialStats, 0, 0.0, [],
                           Channel(true, 0, []), Channel(true, 0, []), Channel(true, 0, []))

  /** A cycle whose XP read succeeds and whose PP read hard-fails keeps the
      XP delta but logs no elapsed time: the XP log is now one entry longer
      than the time log, and the 10 XP gained will be counted in the rate
      with none of the time it took. */
  lemma PartialCycleMisaligns(t1: real, t2: real)
    ensures var r := StopWatch(Fresh, ReadableOnce, t1, t2);
            && r.reached == 1
            && r.est.xp.log == [10] && r.est.xp.last == 10
            && r.est.pp.log == [] && r.est.qp.log == []
            && r.est.dtimeLog == []
            && r.est.lastTimestamp == t1
  {
  }

  /** PP tracked, QP not, window of zero, one sample logged. */
  const PpWithoutQp := Estimator(MovingAverage, 0, InitialStats, 0, 0.0, [10.0],
                                 Channel(false, 0, []), Channel(true, 5, [5]), Channel(false, 0, []))

  /** QP tracked, PP and XP not, window of one, two samples logged. */
  const QpWithoutPp := Estimator(MovingAverage, 1, InitialStats, 0, 0.0, [10.0, 10.0],
                                 Channel(false, 0, []), Channel(false, 0, []), Channel(true, 105, [100, 5]))

  /** With QP tracked and PP untracked, the eviction drops the oldest
      elapsed time and keeps the oldest QP delta: the rate reported is the
      whole QP history, 105, over the 10 s left in the window, 37800 per
      hour, where the corrected eviction reports 5 over 10 s, 1800. */
  lemma UntrackedPpKeepsQpHistory()
    ensures Inv(QpWithoutPp)
    ensures var r := Rates(QpWithoutPp);
            && r.Reported?
            && r.est.qp.log == [100, 5] && r.est.dtimeLog == [10.0]
            && r.rates == HourlyRates(0, 0, 37800)
    ensures var c := RatesCorrected(QpWithoutPp);
            && c.Reported?
            && c.est.qp.log == [5] && c.est.dtimeLog == [10.0]
            && c.rates == HourlyRates(0, 0, 1800)
  {
    var r := Rates(QpWithoutPp);
    assert SumReal(r.est.dtimeLog) == 10.0 && Sum(r.est.qp.log) == 105;
    RoundsToUnique(37800.0, r.rates.qph, 37800);
    var c := RatesCorrected(QpWithoutPp);
    assert SumReal(c.est.dtimeLog) == 10.0 && Sum(c.est.qp.log) == 5;
    RoundsToUnique(1800.0, c.rates.qph, 1800);
  }

  /** With PP tracked and QP untracked, the first eviction pops the QP log,
      which was never written, and `rates()` raises `IndexError` after
      having already dropped the oldest time and PP delta; the corrected
      eviction reports instead. */
  lemma UntrackedQpEvictionCrashes()
    ensures Inv(PpWithoutQp)
    ensures Rates(PpWithoutQp) == Crashed(PpWithoutQp.(dtimeLog := [], pp := Channel(true, 5, [])))
    ensures RatesCorrected(PpWithoutQp).Reported?
  {
  }
}

=== FILE: tracker.dfy ===
/** `Tracker`: the caller-facing object that sets the tracking flags, owns one
    `EstimateRate`, and forwards `progress`, `adjustxp` and `get_rates` to
    it. */
module Tracker {
  import opened Numerics
  import opened Acquisition
  import opened Estimator
  import opened Logger
  import opened RateEstimate

  /** `Tracker`: its start time, its cycle counter (starting at 1) and the
      estimator it owns. */
  datatype Tracker = Tracker(startTime: real, iteration: nat, estimate: Estimator)

  datatype TrackerInit = Started(tracker: Tracker) | ConstructionFailed(stats: Stats, readPos: nat)

  /** What `get_rates` returns: the `{"xph", "pph", "qph"}` dictionary and the
      tracker after the call, or the error `rates()` raised. */
  datatype RateReport = RateTable(table: map<string, int>, tracker: Tracker) | RatesFailed(tracker: Tracker)

  /** `Tracker.__init__` with the clock read as `started` for its start time
      and as `now` for the estimator's time baseline. */
  function NewTracker(duration: int, track: Tracking, mode: Mode, s: Stats, reader: Reader, pos: nat, started: real, now: real): (r: TrackerInit)
    ensures r.ConstructionFailed? <==> duration == 0
    ensures r.Started? ==>
      && r.tracker.startTime == started && r.tracker.iteration == 1
      && Inv(r.tracker.estimate)
      && r.tracker.estimate.dtimeLog == []
      && r.tracker.estimate.xp.log == [] && r.tracker.estimate.pp.log == [] && r.tracker.estimate.qp.log == []
      && r.tracker.estimate.mode == mode
      && (duration > 0 ==> duration * r.tracker.estimate.keepRuns <= WindowSeconds < duration * (r.tracker.estimate.keepRuns + 1))
      && (duration < 0 ==> duration * (r.tracker.estimate.keepRuns + 1) < WindowSeconds <= duration * r.tracker.estimate.keepRuns)
      && r.tracker.estimate.lastTimestamp == now
      && r.tracker.estimate.xp.tracked == track.xp
      && r.tracker.estimate.pp.tracked == track.pp
      && r.tracker.estimate.qp.tracked == track.qp
    // the estimator is the one `EstimateRate.__init__` builds
    ensures r.Started? ==> NewEstimator(duration, track, mode, s, reader, pos, now) == Ready(r.tracker.estimate)
  {
    match NewEstimator(duration, track, mode, s, reader, pos, now)
    case ZeroDuration(s', p') => ConstructionFailed(s', p')
    case Ready(e) => Started(Tracker(started, 1, e))
  }

  /** `progress()`: one `stop_watch` cycle, and the cycle counter moves on
      by one. */
  function Progress(t: Tracker, reader: Reader, t1: real, t2: real): (r: Tracker)
    ensures r.iteration == t.iteration + 1 && r.startTime == t.startTime
    ensures Inv(t.estimate) ==> Inv(r.estimate)
    ensures forall m: RatedMetric ::
              Sum(Chan(r.estimate, m).log) - Chan(r.estimate, m).last
              == Sum(Chan(t.estimate, m).log) - Chan(t.estimate, m).last
    ensures r.estimate.mode == t.estimate.mode && r.estimate.keepRuns == t.estimate.keepRuns
    ensures |r.estimate.dtimeLog| <= |t.estimate.dtimeLog| + 1
    // the estimator is the one `stop_watch()` leaves behind
    ensures r.estimate == StopWatch(t.estimate, reader, t1, t2).est
  {
    StopWatchKeeps(t.estimate, reader, t1, t2);
    t.(iteration := t.iteration + 1, estimate := StopWatch(t.estimate, reader, t1, t2).est)
  }

  /** `adjustxp()`: the XP baseline is resynchronised to the stored XP value
      without a delta being logged. */
  function AdjustXp(t: Tracker): (r: Tracker)
    // the owned estimator's `update_xp()`, so `AdjustXpExcludesOutsideChange`
    // describes the cycle after it
    ensures r.estimate == UpdateXp(t.estimate)
    ensures r.estimate.xp.last == t.estimate.stats.xp
    ensures r.estimate.xp.log == t.estimate.xp.log
    ensures r.estimate.pp == t.estimate.pp && r.estimate.qp == t.estimate.qp
    ensures r.estimate.dtimeLog == t.estimate.dtimeLog
    ensures r.iteration == t.iteration && r.startTime == t.startTime
  {
    t.(estimate := UpdateXp(t.estimate))
  }

  /** `set_value_with_ocr(m)` called by some other `Stats` instance, such as
      the code that spends XP on upgrades: the values it stores are class
      attributes, so they land in the estimator's `stats`, while no baseline
      moves and no delta is logged. */
  function ReadElsewhere(t: Tracker, m: Metric, reader: Reader): (r: Tracker)
    ensures r.estimate.readPos > t.estimate.readPos
    ensures r.estimate.xp == t.estimate.xp && r.estimate.pp == t.estimate.pp && r.estimate.qp == t.estimate.qp
    ensures SameClock(t.estimate, r.estimate)
    ensures r.iteration == t.iteration && r.startTime == t.startTime
    ensures forall m' :: m' != m ==> Stored(r.estimate.stats, m') == Stored(t.estimate.stats, m')
    ensures !r.estimate.stats.failed ==> reader(r.estimate.readPos - 1) == Number(Stored(r.estimate.stats, m))
    ensures r.estimate.stats.failed ==> Stored(r.estimate.stats, m) == Stored(t.estimate.stats, m)
    ensures Inv(t.estimate) ==> Inv(r.estimate)
  {
    var a := Acquire(t.estimate.stats, m, reader, t.estimate.readPos);
    t.(estimate := t.estimate.(stats := a.stats, readPos := a.next))
  }

  /** `adjustxp()` keeps a change made elsewhere out of the next XP delta.
      `ReadElsewhere` is how such a change arises: it moves the stored XP
      and leaves the baseline where it was.  `adjustxp()` is `update_xp()`
      on the owned estimator.  With it first, the next cycle measures XP
      from the stored value; without it, from the old baseline.  Both cycles
      read the same XP, so the unadjusted delta is the adjusted one plus the
      outside change `stats.xp - last_xp`. */
  lemma AdjustXpExcludesOutsideChange(t: Tracker, reader: Reader, t1: real, t2: real)
    requires t.estimate.xp.tracked
    ensures var adjusted := StopWatch(UpdateXp(t.estimate), reader, t1, t2);
            var unadjusted := StopWatch(t.estimate, reader, t1, t2);
            && (adjusted.reached >= 1 ==>
                  adjusted.est.xp.log == t.estimate.xp.log + [adjusted.est.stats.xp - t.estimate.stats.xp])
            && (unadjusted.reached >= 1 ==>
                  unadjusted.est.xp.log == t.estimate.xp.log + [unadjusted.est.stats.xp - t.estimate.xp.last])
            && (adjusted.reached >= 1 && unadjusted.reached >= 1 ==>
                  unadjusted.est.stats.xp - t.estimate.xp.last
                  == (adjusted.est.stats.xp - t.estimate.stats.xp) + (t.estimate.stats.xp - t.estimate.xp.last))
  {
    UpdateXpRebasesNextDelta(t.estimate, reader, t1, t2);
    UpdateXpKeepsNextRead(t.estimate, reader, t1, t2);
    CycleLogsXp(t.estimate, reader, t1, t2);
  }

  /** `get_rates()`: the three rates keyed "xph", "pph" and "qph". */
  function GetRates(t: Tracker): (r: RateReport)
    ensures r.RateTable? ==>
      && r.table.Keys == {"xph", "pph", "qph"}
      && IsHourlyRates(r.tracker.estimate, HourlyRates(r.table["xph"], r.table["pph"], r.table["qph"]))
    ensures r.RatesFailed? ==> t.estimate.mode == MovingAverage && |t.estimate.dtimeLog| > t.estimate.keepRuns
    ensures t.estimate.mode == Average ==> r.RateTable? && r.tracker == t
    ensures t.estimate.mode == MovingAverage && |t.estimate.dtimeLog| <= t.estimate.keepRuns ==>
              r.RateTable? && r.tracker == t
    // above the window the rates are those of the logs after one eviction
    ensures r.RateTable? && t.estimate.mode == MovingAverage && |t.estimate.dtimeLog| > t.estimate.keepRuns ==>
              EvictedOnce(t.estimate, r.tracker.estimate, t.estimate.pp.tracked)
    ensures r.tracker.iteration == t.iteration && r.tracker.startTime == t.startTime
  {
    match Rates(t.estimate)
    case Reported(h, e) =>
      RateTable(map["xph" := h.xph, "pph" := h.pph, "qph" := h.qph], t.(estimate := e))
    case Crashed(e) => RatesFailed(t.(estimate := e))
  }

  /** `progress()` called once per pair of clock readings, in order. */
  function ProgressAll(t: Tracker, reader: Reader, clocks: seq<(real, real)>): (r: Tracker)
    ensures r.iteration == t.iteration + |clocks| && r.startTime == t.startTime
    ensures r.estimate.mode == t.estimate.mode && r.estimate.keepRuns == t.estimate.keepRuns
    ensures |r.estimate.dtimeLog| <= |t.estimate.dtimeLog| + |clocks|
    decreases |clocks|
  {
    if |clocks| == 0 then t
    else ProgressAll(Progress(t, reader, clocks[0].0, clocks[0].1), reader, clocks[1..])
  }

  /** Over any number of cycles, failed ones included, each metric's logged
      deltas add up to the move of its baseline. */
  lemma {:induction false} ProgressAllTelescopes(t: Tracker, reader: Reader, clocks: seq<(real, real)>, m: RatedMetric)
    ensures var r := ProgressAll(t, reader, clocks);
            Sum(Chan(r.estimate, m).log) - Sum(Chan(t.estimate, m).log)
            == Chan(r.estimate, m).last - Chan(t.estimate, m).last
    decreases |clocks|
  {
    if |clocks| > 0 {
      ProgressAllTelescopes(Progress(t, reader, clocks[0].0, clocks[0].1), reader, clocks[1..], m);
    }
  }

  /** Over any number of cycles the estimator invariant is kept. */
  lemma {:induction false} ProgressAllKeepsInv(t: Tracker, reader: Reader, clocks: seq<(real, real)>)
    requires Inv(t.estimate)
    ensures Inv(ProgressAll(t, reader, clocks).estimate)
    decreases |clocks|
  {
    if |clocks| > 0 {
      ProgressAllKeepsInv(Progress(t, reader, clocks[0].0, clocks[0].1), reader, clocks[1..]);
    }
  }

  /** From a freshly built tracker, with no `adjustxp` in between, the XP, PP
      and QP logs always sum to the net gain since construction, so in
      average mode the rates are that gain per hour of logged time. */
  lemma NetGainSinceStart(t: Tracker, reader: Reader, clocks: seq<(real, real)>, m: RatedMetric)
    requires Chan(t.estimate, m).log == []
    ensures var r := ProgressAll(t, reader, clocks);
            Sum(Chan(r.estimate, m).log) == Chan(r.estimate, m).last - Chan(t.estimate, m).last
  {
    ProgressAllTelescopes(t, reader, clocks, m);
  }

  /** In moving-average mode, with the window full or short of full and the
      QP flag no weaker than the PP flag, a cycle followed by `get_rates`
      reports rates and leaves at most `keep_runs` samples, exactly
      `keep_runs` when the window was full and the cycle completed. */
  lemma WindowStaysBounded(t: Tracker, reader: Reader, t1: real, t2: real)
    requires Inv(t.estimate) && t.estimate.keepRuns >= 0
    requires t.estimate.mode == MovingAverage
    requires t.estimate.pp.tracked ==> t.estimate.qp.tracked
    requires |t.estimate.dtimeLog| <= t.estimate.keepRuns
    ensures var p := Progress(t, reader, t1, t2);
            var g := GetRates(p);
            && g.RateTable?
            && |g.tracker.estimate.dtimeLog| <= t.estimate.keepRuns
            && (|p.estimate.dtimeLog| == t.estimate.keepRuns + 1 ==> |g.tracker.estimate.dtimeLog| == t.estimate.keepRuns)
  {
  }
}
